=== FILE: README.md ===
# Inventory store

A model of the console inventory program `assignment-2.py`. The program keeps
one list of product records `{name, price, quantity, type}`, seeded with ten
vegetables, and a numbered menu changes that list in place:

- add a product;
- list the products of a category;
- remove a product by name;
- add stock to a product;
- run a purchase session that sells stock, totals a bill and then drops the
  sold-out records.

The model is organised in these modules:

- `Store.Inventory` is a class whose `products: seq<Product>` field is the
  shared list. Each menu operation that changes the store is a method that
  reassigns that field. The
  methods are proved against pure functions in `Products`, which state the
  meaning of each operation:
  - `Removed` for removal;
  - `Restocked` for a quantity update;
  - `SaleOf` and `AfterSale` for one purchase request;
  - `Collect` for the collecting phase of a session;
  - `Settled` and `SoldOut` for the settlement;
  - `CategoryListing` for the category display.
- `Products` also proves what those functions promise:
  - removal deletes every record with the name;
  - an update or a purchase touches only the first record with the name;
  - no quantity goes negative and the bill never falls;
  - the bill plus the value of the stock on hand stays constant over a session;
  - settlement keeps exactly the records with stock.
- `Validate` models one attempt of each input reader as a function from the
  typed line, or the parsed integer, to an accepted value or a complaint.
- `Text` gives ASCII models of `str.strip()`, `str.lower()` and `str.isdigit()`.
- `Seqs` gives `Filter`, the model of a list comprehension with a condition.
- `Menu` models the menu dispatch.
- `Scenarios` works through two scenarios against the starting store: a purchase
  session that sells out the lettuce, and adding Kale and then listing the
  category "leafy green".

The store invariant `Valid()` says each record has valid text fields, a
positive price and a quantity that is never negative. A purchase may bring a
quantity to 0, but the same call purges that record in its settlement. So
between menu operations the stronger `Stocked` holds: every record has stock.
`AddProduct`, `RemoveProduct` and `UpdateQuantity` keep `Stocked`. `Sell`, one
purchase request, may empty a record, and `Purchase` re-establishes `Stocked`
whatever the store held before.

## Model

| member | source | states |
|---|---|---|
| Text.IsSpace | assignment-2.py:16 | the characters every strip removes: space, tab, newline, vertical tab, form feed, carriage return and the separators \x1c to \x1f |
| Text.AllDigits | assignment-2.py:19 | the test for numeric text: non-empty with every character an ASCII digit |
| Text.LowerChar | assignment-2.py:55 | a capital A-Z becomes its own small letter a-z, every other character is kept, and whitespace stays whitespace |
| Text.Lower | assignment-2.py:55 | lowering keeps the length of the text |
| Text.LowerAt | assignment-2.py:55 | lowering works character by character: position i of the result is character i lowered |
| Text.LowerIdempotent | assignment-2.py:51 | lowering twice equals lowering once, and text is unchanged by lowering exactly when it has no capitals |
| Text.TrimLeft | assignment-2.py:16 | the result is a suffix, everything dropped is whitespace, and the result does not start with whitespace |
| Text.TrimRight | assignment-2.py:16 | the result is a prefix, everything dropped is whitespace, and the result does not end with whitespace |
| Text.Trim | assignment-2.py:16 | the result has no whitespace at either end; it is empty exactly when the line is all whitespace; trimmed text is left unchanged |
| Text.TrimIdempotent | assignment-2.py:16 | stripping a stripped line changes nothing (a corollary of `Trim`'s first and third clauses) |
| Text.LowerKnown | assignment-2.py:55 | text lowers to `t` whenever its characters lower one by one to those of `t` |
| Seqs.Filter | assignment-2.py:66 | a selection is never longer than the list it selects from |
| Seqs.FilterMembers | assignment-2.py:66 | a value is in the selection exactly when it is in the list and satisfies the condition |
| Seqs.FilterAppend | assignment-2.py:54-57 | selecting from a concatenation concatenates the selections, so the order of the list is kept |
| Seqs.FilterFrom | assignment-2.py:54-57 | selecting from position i on takes element i when it satisfies the condition, then continues from i + 1 |
| Seqs.FilterMultiset | assignment-2.py:127 | the selection holds every occurrence of a selected value and none of an unselected one |
| Seqs.FilterIdentity | assignment-2.py:127 | the selection equals the list exactly when every element satisfies the condition |
| Seqs.FilterEmpty | assignment-2.py:58 | the selection is empty exactly when no element satisfies the condition |
| Seqs.FilterSplit | assignment-2.py:123-127 | two complementary selections together have the length of the list |
| Validate.ValidText | assignment-2.py:16-22 | what the text reader returns: stripped, non-empty and not all digits |
| Validate.ReadPositiveInt | assignment-2.py:1-11 | one attempt is accepted exactly when the parsed value exists and is > 0, and then returns that value; a failed parse and a value <= 0 get different complaints |
| Validate.ReadText | assignment-2.py:13-22 | one attempt is accepted exactly when the stripped line is non-empty and not all digits, and then returns the stripped line; "empty" is reported exactly for an all-blank line |
| Validate.ReadTextAcceptsValid | assignment-2.py:16-22 | every valid text is accepted exactly as typed |
| Products.ValidProduct | assignment-2.py:38-43 | what every record keeps: text fields as the text reader returns them, price > 0, quantity >= 0 |
| Products.ValidStore | assignment-2.py:38-44 | the store invariant: every record is valid |
| Products.Stocked | assignment-2.py:122-127 | every record has quantity > 0, which holds between menu operations |
| Products.DrawnFromValid | assignment-2.py:66 | records taken from a valid store form a valid store |
| Products.ReadingsMakeValidProduct | assignment-2.py:38-43 | a record built from four accepted readings is valid, with price > 0 and quantity > 0 |
| Products.Key | assignment-2.py:64 | the lookup key of a typed line: stripped, then lower-cased |
| Products.KeyIsNormalised | assignment-2.py:64 | a lookup key has no surrounding whitespace and no capitals, and is no longer than the typed line |
| Products.NamedAs | assignment-2.py:79 | a record matches a key when its lowered name equals it, the comparison also made at lines 66 and 103 |
| Products.OfCategory | assignment-2.py:55 | a record is in a category when its lowered type equals the key |
| Products.FirstNamed | assignment-2.py:78-83 | the first position whose lowered name equals the key: it matches, nothing before it matches, and there is none exactly when no record matches |
| Products.CategoryListing | assignment-2.py:54-57 | the records whose lowered type equals the key, in store order |
| Products.CategoryListingExact | assignment-2.py:49-59 | the listing holds exactly the records of the category, and "not found" is reported exactly when no record has it |
| Products.Removed | assignment-2.py:66 | the records whose lowered name differs from the key, in store order |
| Products.RemoveDropsAllMatches | assignment-2.py:62-70 | removal keeps exactly the records whose lowered name differs from the key; the store shrinks by the number of matches, so it shrinks exactly when one exists; an absent key leaves the store identical; validity is kept |
| Products.RemoveKeepsStock | assignment-2.py:66 | removal keeps every remaining record stocked |
| Products.WithQuantity | assignment-2.py:80 | the store with one record's quantity replaced |
| Products.Restocked | assignment-2.py:78-83 | the store with the first record of that name raised by the amount, or unchanged when none matches |
| Products.RestockAtFirstMatch | assignment-2.py:78-83 | only the quantity of the first match rises, by the amount; every other record, later duplicates included, is unchanged |
| Products.RestockWithoutMatch | assignment-2.py:84-85 | with no match the store is unchanged |
| Products.RestockKeepsValid | assignment-2.py:80 | adding a positive amount keeps the store valid |
| Products.RestockKeepsStock | assignment-2.py:80 | adding a positive amount keeps every record stocked |
| Products.QuantitySetValid | assignment-2.py:80 | setting one quantity to a non-negative value keeps the store valid |
| Products.SaleOf | assignment-2.py:102-118 | what one request reports: not found, insufficient stock with the quantity available, or a sale with its cost and whether it emptied the record |
| Products.AfterSale | assignment-2.py:102-115 | the store after one request: the first record of that name loses qty when it has enough, otherwise nothing changes |
| Products.Charge | assignment-2.py:109-110 | what one request adds to the bill: the cost of a sale, else 0 |
| Products.SaleAtFirstMatch | assignment-2.py:102-115 | the first match decides: with enough stock its quantity drops by qty and the sale costs price * qty, with a sold-out flag exactly when it reaches 0; otherwise the store is unchanged and the available quantity is reported |
| Products.SaleWithoutMatch | assignment-2.py:117-118 | a request for an absent name is reported as not found and changes nothing |
| Products.DepletedTransitive | assignment-2.py:108 | "only quantities lowered" composes over several steps |
| Products.SaleKeepsValid | assignment-2.py:105-108 | a purchase step keeps every quantity >= 0 and only lowers quantities |
| Products.QuantityLowered | assignment-2.py:108 | lowering one quantity, but not below zero, keeps the store valid and only lowers quantities |
| Products.SaleChargeNonNegative | assignment-2.py:109-110 | a purchase step never lowers the bill, and raises it exactly when something is sold |
| Products.StockValueUpdate | assignment-2.py:108 | replacing one record changes the stock value by the difference of the two records' values |
| Products.SellingMovesValue | assignment-2.py:108-109 | selling qty of a record lowers the stock value by exactly price * qty |
| Products.SaleConservesValue | assignment-2.py:102-115 | what a step adds to the bill is exactly what the stock on hand loses |
| Products.Ends | assignment-2.py:95-97 | a request ends the session when its key is "done" |
| Products.SessionLength | assignment-2.py:94-97 | how many requests the session serves, those before the first "done"; never more than there are |
| Products.SessionLengthExact | assignment-2.py:94-97 | the count is exact: no request before position SessionLength ends the session, and the one at that position, if there is one, does |
| Products.WellFormed | assignment-2.py:99 | every request the session serves carries a quantity the integer reader accepted; lines after "done" are unconstrained |
| Products.Serve | assignment-2.py:99-118 | one purchase step applied to the store and the running bill |
| Products.Collect | assignment-2.py:94-118 | the collecting phase: requests served in order until "done" or the end of the script |
| Products.ServedAlone | assignment-2.py:94-99 | a single request that is not "done" is served, and needs a positive quantity |
| Products.WellFormedTail | assignment-2.py:99 | after a served request, the rest of the script is still well formed and the served one had a positive quantity |
| Products.CollectKeepsValid | assignment-2.py:94-118 | over a whole collecting phase the store stays valid and only quantities drop |
| Products.CollectConservesValue | assignment-2.py:91-118 | over a whole collecting phase the bill never falls, and the bill plus the stock value is constant |
| Products.SoldOut | assignment-2.py:123 | the records with quantity 0, in store order |
| Products.Settled | assignment-2.py:127 | the records with quantity > 0, in store order |
| Products.SettleSplits | assignment-2.py:122-127 | settlement keeps exactly the records with quantity > 0 and announces exactly those with quantity 0; on a valid store the two lists split it and nothing is dropped when none is sold out |
| Products.SettleKeepsValue | assignment-2.py:127 | dropping the empty records does not change the stock value |
| Products.EmptiedAt | assignment-2.py:102-115 | positions are kept, and each record at 0 afterwards is the record at its position before, which had stock, with only its quantity brought to 0 |
| Products.EmptiedFrom | assignment-2.py:113-126 | every announced record is a record of the earlier store that had stock, with only its quantity brought to 0 |
| Products.EmptiedDuringSession | assignment-2.py:102-115 | on a stocked store a collecting phase empties records only in place: each record at 0 afterwards is its own earlier record with quantity 0 |
| Products.SoldOutWereStocked | assignment-2.py:102-126 | on a stocked store, every record a session announces as sold out is a record of the starting store, with the same name, price and type, that had stock and was emptied by the session |
| Products.SoldOutIsGone | assignment-2.py:113-127 | a record already empty stays empty through a collecting phase and is gone after settlement |
| Store.Seed | assignment-2.py:134-145 | the ten records the program starts with, in order |
| Store.SeedValid | assignment-2.py:134-145 | the starting store has ten valid records and is stocked |
| Store.Inventory.constructor | assignment-2.py:134-145 | the store starts as the ten seeded records, valid and stocked |
| Store.Inventory.AddProduct | assignment-2.py:35-47 | exactly one record with the given fields is appended at the end; earlier records are unchanged; validity and stock are kept |
| Store.Inventory.ProductsInCategory | assignment-2.py:49-60 | the loop shows the category listing in store order; "found" holds exactly when the listing is non-empty, which is exactly when some record's lowered type equals the key |
| Store.Inventory.RemoveProduct | assignment-2.py:62-71 | the store becomes the removal of the key; "removed" holds exactly when the store shrank, which is exactly when some record matched; stock is kept |
| Store.Inventory.UpdateQuantity | assignment-2.py:73-86 | the search loop restocks the first match; "updated" holds exactly when a record matched; stock is kept |
| Store.Inventory.Sell | assignment-2.py:99-118 | one request: the store and the report follow the purchase step, and the bill grows by the step's charge and never falls |
| Store.Inventory.SettleSoldOut | assignment-2.py:122-129 | the sold-out list is announced and the store keeps only records with stock, so it is stocked |
| Store.Inventory.Purchase | assignment-2.py:88-129 | a whole session: bill, sold-out list and final store are those of the collecting fold followed by settlement; bill >= 0, bill plus stock value is conserved, the store is stocked afterwards, and on a stocked store every announced record is a record of the starting store, with stock then, emptied by this session |
| Menu.Label | assignment-2.py:159-173 | the text typed to select each of the eight entries, "1" to "8" |
| Menu.ParseChoice | assignment-2.py:157-177 | a choice other than Invalid is selected exactly by its label after stripping, and Invalid exactly when no label matches |
| Menu.ParseLabel | assignment-2.py:159-175 | typing a label selects its entry, so the labels are distinct |
| Scenarios.ReaderRefusesThenAccepts | assignment-2.py:5-11 | "-5" is refused as not positive, an unparsable line as not a number, and 5 is accepted |
| Scenarios.LettuceNotDone | assignment-2.py:95-96 | the line "lettuce" does not end the session |
| Scenarios.LettuceScript | assignment-2.py:94-99 | the one-line script "lettuce", 50 is served in full and is well formed |
| Scenarios.LettuceSession | assignment-2.py:102-115 | buying all 50 lettuce from the starting store empties that record and bills 500 |
| Scenarios.SettleDropsHead | assignment-2.py:123-127 | when only the first record is empty, settlement announces it and keeps the rest |
| Scenarios.LettucePurchase | assignment-2.py:88-129 | the session bills 500, announces lettuce as sold out, and leaves the other nine seeded products |
| Scenarios.LettuceSellsOut | assignment-2.py:88-129 | the same session through the Inventory class gives the same bill, announcement and store |
| Scenarios.KaleReadable | assignment-2.py:38-41 | "Kale" and "Leafy green" pass the text reader |
| Scenarios.AppendedToCategory | assignment-2.py:44 | appending a record whose type lowers to the key adds it at the end of that category's listing |
| Scenarios.LeafyGreenKey | assignment-2.py:51 | the typed line "leafy green" is its own key |
| Scenarios.SeedPatternListing | assignment-2.py:54-57 | a ten-record store with the seed's pattern of types lists records 0, 6 and 8 |
| Scenarios.SeedLeafyGreens | assignment-2.py:134-145 | the starting store's leafy greens are lettuce, spinach and garlic, in that order |
| Scenarios.KaleAppended | assignment-2.py:43-44 | appending Kale adds it at the end of the "leafy green" listing |
| Scenarios.KaleListing | assignment-2.py:49-57 | after Kale is added, "leafy green" lists lettuce, spinach, garlic and Kale, in insertion order |
| Scenarios.KaleJoinsLeafyGreens | assignment-2.py:35-60 | the same scenario through the Inventory class: adding Kale and listing "leafy green" shows those four records, and something is found |

## Left out

- Console input and output are left out. Typed lines, parsed integers and request lists are parameters. The printed text, the record line format and `capitalize()` are not modelled; the methods' results carry what the messages report.
- The re-prompt loops of both readers are left out. `ReadPositiveInt` and `ReadText` model one attempt; a reader returns the first accepted attempt.
- The menu loop in `main()` is left out. `Menu.ParseChoice` models which operation one typed line selects.
- The purchase session's read loop is modelled as a fold over a finite list of requests. If the list ends before a "done" line, the session ends as if "done" had been typed.
- The quantity reading of a request is modelled by an integer that the reader already accepted. `WellFormed` demands that it is positive for every request the session serves, those before the first "done".
- `display_inventory` and `display_total_products` only print, so they are not modelled.
- Python's `int()` grammar is not modelled: the reader receives the parsed value, or `None` where `int()` raises `ValueError`.
- `str.lower()`, `str.strip()` and `str.isdigit()` are modelled on ASCII only. Non-ASCII letters, spaces and digits behave differently in Python.
- `round(total_bill)` is not modelled. The bill is always an integer, so rounding does not change it.
- Python integers are unbounded, and so are the model's.
- Products are values in a sequence, so aliasing of record dictionaries is not modelled. The program never shares a record between two list slots.

=== FILE: menu.dfy ===
/** The menu dispatch of main(): which operation a typed choice selects. */
module Menu {
  import opened Text

  /** The eight menu entries, and Invalid for any other input. */
  datatype Choice =
    | ShowTotal | AddNew | ShowAll | ShowCategory
    | RemoveByName | UpdateStock | PurchaseItems | Exit
    | Invalid

  /** The number the menu prints before each entry. */
  function Label(c: Choice): string
    requires c != Invalid
  {
    match c
    case ShowTotal => "1"
    case AddNew => "2"
    case ShowAll => "3"
    case ShowCategory => "4"
    case RemoveByName => "5"
    case UpdateStock => "6"
    case PurchaseItems => "7"
    case Exit => "8"
  }

  /** The entry selected by a typed line, compared after stripping it. */
  function ParseChoice(line: string): (c: Choice)
    ensures c != Invalid ==> Trim(line) == Label(c)
    ensures c == Invalid <==> forall d: Choice :: d != Invalid ==> Label(d) != Trim(line)
  {
    var choice := Trim(line);
    if choice == "1" then ShowTotal
    else if choice == "2" then AddNew
    else if choice == "3" then ShowAll
    else if choice == "4" then ShowCategory
    else if choice == "5" then RemoveByName
    else if choice == "6" then UpdateStock
    else if choice == "7" then PurchaseItems
    else if choice == "8" then Exit
    else Invalid
  }

  /** Typing an entry's label selects that entry, so distinct entries have distinct labels. */
  lemma ParseLabel(c: Choice)
    requires c != Invalid
    ensures ParseChoice(Label(c)) == c
  {
    assert IsTrimmed(Label(c));
  }
}

=== FILE: options.dfy ===
/** An optional value, for lookups that may find nothing and readings that may fail to parse. */
module Options {
  datatype Option<T> = None | Some(value: T)
}

=== FILE: products.dfy ===
/** The product record and the pure meaning of every inventory operation: each
    method of Store.Inventory is specified by the functions here, and the
    lemmas here state what those functions promise. */
module Products {
  import opened Options
  import opened Text
  import opened Seqs
  import opened Validate

  /** One inventory record; `ptype` is the record's "type", its category. */
  datatype Product = Product(name: string, price: int, quantity: int, ptype: string)

  /** What the store keeps true of every record: text fields as the text reader
      returns them, a positive price, a quantity that never goes negative. */
  predicate ValidProduct(p: Product) {
    ValidText(p.name) && p.price > 0 && p.quantity >= 0 && ValidText(p.ptype)
  }

  predicate ValidStore(s: seq<Product>) {
    forall i {:trigger ValidProduct(s[i])} :: 0 <= i < |s| ==> ValidProduct(s[i])
  }

  /** The invariant the store keeps between menu operations: every record has
      stock, because a purchase session purges the records it empties before
      it returns. */
  predicate Stocked(s: seq<Product>) {
    forall i :: 0 <= i < |s| ==> s[i].quantity > 0
  }

  /** Records drawn from a valid store form a valid store. */
  lemma DrawnFromValid(s: seq<Product>, t: seq<Product>)
    requires ValidStore(s) && forall p :: p in t ==> p in s
    ensures ValidStore(t)
  {
    forall j | 0 <= j < |t| ensures ValidProduct(t[j]) {
      assert t[j] in s;
      var k :| 0 <= k < |s| && s[k] == t[j];
      assert ValidProduct(s[k]);
    }
  }

  /** A record whose fields came from accepted readings is valid, with stock on hand:
      add_product can only create such records. */
  lemma ReadingsMakeValidProduct(nameLine: string, price: Option<int>, quantity: Option<int>, typeLine: string)
    requires ReadText(nameLine).Accepted? && ReadText(typeLine).Accepted?
    requires ReadPositiveInt(price).Accepted? && ReadPositiveInt(quantity).Accepted?
    ensures var p := Product(ReadText(nameLine).value, ReadPositiveInt(price).value,
                             ReadPositiveInt(quantity).value, ReadText(typeLine).value);
            ValidProduct(p) && p.price > 0 && p.quantity > 0
  {
  }

  /** The key a typed line is looked up by: the line stripped and lower-cased. */
  function Key(line: string): string {
    Lower(Trim(line))
  }

  /** A key has no surrounding whitespace and no capitals, whatever was typed. */
  lemma KeyIsNormalised(line: string)
    ensures IsTrimmed(Key(line)) && |Key(line)| <= |line|
    ensures forall i :: 0 <= i < |Key(line)| ==> !IsUpper(Key(line)[i])
  {
    forall i | 0 <= i < |Key(line)| ensures !IsUpper(Key(line)[i]) {
      LowerAt(Trim(line), i);
    }
    var t := Trim(line);
    if t != [] {
      LowerAt(t, 0);
      LowerAt(t, |t| - 1);
    }
  }

  predicate NamedAs(p: Product, key: string) {
    Lower(p.name) == key
  }

  predicate OfCategory(p: Product, key: string) {
    Lower(p.ptype) == key
  }

  predicate InStock(p: Product) {
    p.quantity > 0
  }

  predicate IsSoldOut(p: Product) {
    p.quantity == 0
  }

  function Named(key: string): Product -> bool {
    p => NamedAs(p, key)
  }

  function NotNamed(key: string): Product -> bool {
    p => !NamedAs(p, key)
  }

  function InCategory(key: string): Product -> bool {
    p => OfCategory(p, key)
  }

  /** The position of the first record whose lower-cased name is `key`, if any. */
  function FirstNamed(s: seq<Product>, key: string): (r: Option<nat>)
    ensures r.Some? ==> r.value < |s| && NamedAs(s[r.value], key)
    ensures r.Some? ==> forall j :: 0 <= j < r.value ==> !NamedAs(s[j], key)
    ensures r.None? <==> forall j :: 0 <= j < |s| ==> !NamedAs(s[j], key)
  {
    if s == [] then None
    else if NamedAs(s[0], key) then Some(0)
    else match FirstNamed(s[1..], key)
      case None => None
      case Some(i) => Some(i + 1)
  }

  /** A match with no match before it is the first match. */
  lemma FirstNamedAt(s: seq<Product>, key: string, i: nat)
    requires i < |s| && NamedAs(s[i], key)
    requires forall j :: 0 <= j < i ==> !NamedAs(s[j], key)
    ensures FirstNamed(s, key) == Some(i)
  {
  }

  // ----- display_products_by_category -----

  /** The records display_products_by_category prints, in store order. */
  function CategoryListing(s: seq<Product>, key: string): seq<Product> {
    Filter(s, InCategory(key))
  }

  /** The listing holds exactly the records of the category, and "not found" is
      reported exactly when no record has that category. */
  lemma CategoryListingExact(s: seq<Product>, key: string)
    ensures forall p :: p in CategoryListing(s, key) ==> p in s && OfCategory(p, key)
    ensures forall i :: 0 <= i < |s| && OfCategory(s[i], key) ==> s[i] in CategoryListing(s, key)
    ensures CategoryListing(s, key) == [] <==> forall i :: 0 <= i < |s| ==> !OfCategory(s[i], key)
  {
    FilterMembers(s, InCategory(key));
    FilterEmpty(s, InCategory(key));
  }

  // ----- remove_product -----

  /** The store after remove_product: every record not named `key`, in order. */
  function Removed(s: seq<Product>, key: string): seq<Product> {
    Filter(s, NotNamed(key))
  }

  /** remove_product deletes every record named `key` and nothing else; the
      store shrinks by the number of matches, so it shrinks exactly when some
      record matched, and an absent key leaves the store as it was. */
  lemma RemoveDropsAllMatches(s: seq<Product>, key: string)
    ensures forall p :: p in Removed(s, key) ==> p in s && !NamedAs(p, key)
    ensures forall i :: 0 <= i < |s| && !NamedAs(s[i], key) ==> s[i] in Removed(s, key)
    ensures |s| - |Removed(s, key)| == |Filter(s, Named(key))|
    ensures |Removed(s, key)| < |s| <==> exists i :: 0 <= i < |s| && NamedAs(s[i], key)
    ensures (forall i :: 0 <= i < |s| ==> !NamedAs(s[i], key)) ==> Removed(s, key) == s
    ensures ValidStore(s) ==> ValidStore(Removed(s, key))
  {
    FilterMembers(s, NotNamed(key));
    FilterSplit(s, NotNamed(key), Named(key));
    FilterIdentity(s, NotNamed(key));
    FilterEmpty(s, Named(key));
    if ValidStore(s) {
      DrawnFromValid(s, Removed(s, key));
    }
  }

  /** Removal keeps every remaining record stocked. */
  lemma RemoveKeepsStock(s: seq<Product>, key: string)
    requires Stocked(s)
    ensures Stocked(Removed(s, key))
  {
    FilterMembers(s, NotNamed(key));
    forall i | 0 <= i < |Removed(s, key)| ensures Removed(s, key)[i].quantity > 0 {
      assert Removed(s, key)[i] in s;
    }
  }

  // ----- update_quantity -----

  /** `s` with the quantity of record `i` set to `n`. */
  function WithQuantity(s: seq<Product>, i: nat, n: int): seq<Product>
    requires i < |s|
  {
    s[i := s[i].(quantity := n)]
  }

  /** The store after update_quantity: the first record named `key` gains
      `amount`, all others are as they were. */
  function Restocked(s: seq<Product>, key: string, amount: int): seq<Product> {
    match FirstNamed(s, key)
    case None => s
    case Some(i) => WithQuantity(s, i, s[i].quantity + amount)
  }

  /** update_quantity changes only the quantity of the first match: later
      duplicates and every other record stay as they were. */
  lemma RestockAtFirstMatch(s: seq<Product>, key: string, amount: int, i: nat)
    requires i < |s| && NamedAs(s[i], key)
    requires forall j :: 0 <= j < i ==> !NamedAs(s[j], key)
    ensures Restocked(s, key, amount) == WithQuantity(s, i, s[i].quantity + amount)
    ensures |Restocked(s, key, amount)| == |s|
    ensures Restocked(s, key, amount)[i] == s[i].(quantity := s[i].quantity + amount)
    ensures forall j :: 0 <= j < |s| && j != i ==> Restocked(s, key, amount)[j] == s[j]
  {
    FirstNamedAt(s, key, i);
  }

  /** update_quantity on an absent name leaves the store as it was. */
  lemma RestockWithoutMatch(s: seq<Product>, key: string, amount: int)
    requires forall j :: 0 <= j < |s| ==> !NamedAs(s[j], key)
    ensures Restocked(s, key, amount) == s
  {
  }

  /** Adding a positive amount keeps every record valid. */
  lemma RestockKeepsValid(s: seq<Product>, key: string, amount: int)
    requires ValidStore(s) && amount > 0
    ensures ValidStore(Restocked(s, key, amount))
  {
    match FirstNamed(s, key)
    case None =>
    case Some(i) =>
      assert ValidProduct(s[i]);
      QuantitySetValid(s, i, s[i].quantity + amount);
  }

  /** Adding a positive amount keeps every record stocked. */
  lemma RestockKeepsStock(s: seq<Product>, key: string, amount: int)
    requires Stocked(s) && amount > 0
    ensures Stocked(Restocked(s, key, amount))
  {
  }

  /** Setting one record's quantity to any non-negative value keeps the store valid. */
  lemma QuantitySetValid(s: seq<Product>, i: nat, n: int)
    requires ValidStore(s) && i < |s| && n >= 0
    ensures ValidStore(WithQuantity(s, i, n))
  {
    var t := WithQuantity(s, i, n);
    forall j | 0 <= j < |t| ensures ValidProduct(t[j]) {
      assert ValidProduct(s[j]);
    }
  }

  // ----- purchase_products: the purchase step -----

  /** What one purchase request reports: no such product, too little stock
      (with the quantity available), or a sale with its cost and whether it
      emptied the record. */
  datatype Sale = NotFound | Insufficient(available: int) | Sold(cost: int, soldOut: bool)

  /** The outcome of asking for `qty` of the product named `key`. */
  function SaleOf(s: seq<Product>, key: string, qty: int): Sale {
    match FirstNamed(s, key)
    case None => NotFound
    case Some(i) =>
      if s[i].quantity < qty then Insufficient(s[i].quantity)
      else Sold(s[i].price * qty, s[i].quantity - qty == 0)
  }

  /** The store after that request. */
  function AfterSale(s: seq<Product>, key: string, qty: int): seq<Product> {
    match FirstNamed(s, key)
    case None => s
    case Some(i) =>
      if s[i].quantity < qty then s
      else WithQuantity(s, i, s[i].quantity - qty)
  }

  /** What a request adds to the running bill. */
  function Charge(sale: Sale): int {
    if sale.Sold? then sale.cost else 0
  }

  /** The purchase step looks only at the first record named `key`: with enough
      stock it loses `qty` and the bill gains price * qty, otherwise nothing changes. */
  lemma SaleAtFirstMatch(s: seq<Product>, key: string, qty: int, i: nat)
    requires i < |s| && NamedAs(s[i], key)
    requires forall j :: 0 <= j < i ==> !NamedAs(s[j], key)
    ensures s[i].quantity >= qty ==>
              AfterSale(s, key, qty) == WithQuantity(s, i, s[i].quantity - qty) &&
              SaleOf(s, key, qty) == Sold(s[i].price * qty, s[i].quantity == qty)
    ensures s[i].quantity < qty ==>
              AfterSale(s, key, qty) == s && SaleOf(s, key, qty) == Insufficient(s[i].quantity)
  {
    FirstNamedAt(s, key, i);
  }

  /** A request for an absent name is reported as not found and changes nothing. */
  lemma SaleWithoutMatch(s: seq<Product>, key: string, qty: int)
    requires forall j :: 0 <= j < |s| ==> !NamedAs(s[j], key)
    ensures AfterSale(s, key, qty) == s && SaleOf(s, key, qty) == NotFound
  {
  }

  /** `t` is `s` with only quantities lowered: same records, same order. */
  predicate Depleted(s: seq<Product>, t: seq<Product>) {
    |t| == |s| &&
    forall i :: 0 <= i < |s| ==>
      t[i].name == s[i].name && t[i].price == s[i].price && t[i].ptype == s[i].ptype &&
      t[i].quantity <= s[i].quantity
  }

  lemma DepletedTransitive(a: seq<Product>, b: seq<Product>, c: seq<Product>)
    requires Depleted(a, b) && Depleted(b, c)
    ensures Depleted(a, c)
  {
  }

  /** A purchase step keeps the store valid (no quantity goes negative) and
      only lowers quantities. */
  lemma SaleKeepsValid(s: seq<Product>, key: string, qty: int)
    requires ValidStore(s) && qty > 0
    ensures ValidStore(AfterSale(s, key, qty)) && Depleted(s, AfterSale(s, key, qty))
  {
    match FirstNamed(s, key)
    case None =>
    case Some(i) =>
      if s[i].quantity >= qty {
        QuantityLowered(s, i, s[i].quantity - qty);
      }
  }

  /** Lowering one record's quantity, but not below zero, keeps the store valid. */
  lemma QuantityLowered(s: seq<Product>, i: nat, n: int)
    requires ValidStore(s) && i < |s| && 0 <= n <= s[i].quantity
    ensures ValidStore(WithQuantity(s, i, n)) && Depleted(s, WithQuantity(s, i, n))
  {
    QuantitySetValid(s, i, n);
  }

  lemma MulPositive(a: int, b: int)
    requires a > 0 && b > 0
    ensures a * b > 0
  {
  }

  /** A purchase step never lowers the bill, and raises it exactly when
      something is sold. */
  lemma SaleChargeNonNegative(s: seq<Product>, key: string, qty: int)
    requires ValidStore(s) && qty > 0
    ensures Charge(SaleOf(s, key, qty)) >= 0
    ensures Charge(SaleOf(s, key, qty)) > 0 <==> SaleOf(s, key, qty).Sold?
  {
    var m := FirstNamed(s, key);
    if m.Some? {
      var i := m.value;
      assert ValidProduct(s[i]);
      if s[i].quantity >= qty {
        MulPositive(s[i].price, qty);
      }
    }
  }

  /** The value of the stock on hand: price times quantity, summed over the records. */
  function StockValue(s: seq<Product>): int {
    if s == [] then 0 else s[0].price * s[0].quantity + StockValue(s[1..])
  }

  lemma {:induction false} StockValueUpdate(s: seq<Product>, i: nat, p: Product)
    requires i < |s|
    ensures StockValue(s[i := p]) == StockValue(s) - s[i].price * s[i].quantity + p.price * p.quantity
  {
    if i == 0 {
      assert s[i := p][1..] == s[1..];
    } else {
      assert s[i := p][1..] == s[1..][i - 1 := p];
      StockValueUpdate(s[1..], i - 1, p);
    }
  }

  /** Selling `qty` from record `i` moves price * qty from the stock value. */
  lemma SellingMovesValue(s: seq<Product>, i: nat, qty: int)
    requires i < |s| && qty <= s[i].quantity
    ensures s[i].price * qty + StockValue(WithQuantity(s, i, s[i].quantity - qty)) == StockValue(s)
  {
    var p := s[i].(quantity := s[i].quantity - qty);
    StockValueUpdate(s, i, p);
    MulSub(s[i].price, s[i].quantity, qty);
  }

  lemma MulSub(a: int, b: int, c: int)
    ensures a * (b - c) == a * b - a * c
  {
  }

  /** A purchase step moves value from the shelf to the bill: what the bill
      gains is exactly what the stock on hand loses. */
  lemma SaleConservesValue(s: seq<Product>, key: string, qty: int)
    ensures Charge(SaleOf(s, key, qty)) + StockValue(AfterSale(s, key, qty)) == StockValue(s)
  {
    match FirstNamed(s, key)
    case None =>
    case Some(i) =>
      if s[i].quantity >= qty {
        SellingMovesValue(s, i, qty);
      }
  }

  // ----- purchase_products: the session -----

  /** One line of a purchase session: the typed item name and the quantity
      read after it. The quantity of the closing "done" line is never read. */
  datatype Request = Request(item: string, qty: int)

  /** The running state of the collecting phase: the store and the bill so far. */
  datatype Till = Till(store: seq<Product>, bill: int)

  predicate Ends(r: Request) {
    Key(r.item) == "done"
  }

  /** How many requests the session serves: those before the first "done". */
  function SessionLength(reqs: seq<Request>): (n: nat)
    ensures n <= |reqs|
  {
    if reqs == [] || Ends(reqs[0]) then 0 else 1 + SessionLength(reqs[1..])
  }

  /** The count is exact: no request before position SessionLength(reqs)
      ends the session, and the one at that position, if any, does. */
  lemma {:induction false} SessionLengthExact(reqs: seq<Request>)
    ensures forall i :: 0 <= i < SessionLength(reqs) ==> !Ends(reqs[i])
    ensures SessionLength(reqs) < |reqs| ==> Ends(reqs[SessionLength(reqs)])
  {
    if reqs != [] && !Ends(reqs[0]) {
      var n := SessionLength(reqs[1..]);
      SessionLengthExact(reqs[1..]);
      forall i | 1 <= i < n + 1 ensures !Ends(reqs[i]) {
        assert reqs[i] == reqs[1..][i - 1];
      }
      if n + 1 < |reqs| {
        assert reqs[n + 1] == reqs[1..][n];
      }
    }
  }

  /** Every request the session serves carries a quantity the integer reader
      accepted; nothing is demanded of the lines after the first "done",
      which the session never reads. */
  predicate WellFormed(reqs: seq<Request>) {
    forall i :: 0 <= i < SessionLength(reqs) ==> reqs[i].qty > 0
  }

  /** One purchase step applied to the till. */
  function Serve(t: Till, key: string, qty: int): Till {
    Till(AfterSale(t.store, key, qty), t.bill + Charge(SaleOf(t.store, key, qty)))
  }

  /** The collecting phase: requests are served in order until one whose key is
      "done" or until the requests run out. */
  function Collect(t: Till, reqs: seq<Request>): Till
    decreases |reqs|
  {
    if reqs == [] || Ends(reqs[0]) then t
    else Collect(Serve(t, Key(reqs[0].item), reqs[0].qty), reqs[1..])
  }

  /** A single request that is not "done" is served, and needs a positive quantity. */
  lemma ServedAlone(r: Request)
    requires !Ends(r) && r.qty > 0
    ensures SessionLength([r]) == 1 && WellFormed([r])
  {
    assert [r][1..] == [];
  }

  lemma WellFormedTail(reqs: seq<Request>)
    requires reqs != [] && !Ends(reqs[0]) && WellFormed(reqs)
    ensures reqs[0].qty > 0 && WellFormed(reqs[1..])
  {
    forall i | 0 <= i < SessionLength(reqs[1..]) ensures reqs[1..][i].qty > 0 {
      assert reqs[1..][i] == reqs[i + 1];
    }
  }

  /** Over a whole collecting phase the store stays valid and only quantities drop. */
  lemma {:induction false} CollectKeepsValid(t: Till, reqs: seq<Request>)
    requires ValidStore(t.store) && WellFormed(reqs)
    ensures ValidStore(Collect(t, reqs).store)
    ensures Depleted(t.store, Collect(t, reqs).store)
    decreases |reqs|
  {
    if reqs != [] && !Ends(reqs[0]) {
      var key, qty := Key(reqs[0].item), reqs[0].qty;
      SaleKeepsValid(t.store, key, qty);
      WellFormedTail(reqs);
      var u := Serve(t, key, qty);
      CollectKeepsValid(u, reqs[1..]);
      DepletedTransitive(t.store, u.store, Collect(u, reqs[1..]).store);
    }
  }

  /** Over a whole collecting phase the bill never falls, and the bill plus the
      value of the stock on hand stays what it was. */
  lemma {:induction false} CollectConservesValue(t: Till, reqs: seq<Request>)
    requires ValidStore(t.store) && WellFormed(reqs)
    ensures Collect(t, reqs).bill >= t.bill
    ensures Collect(t, reqs).bill + StockValue(Collect(t, reqs).store) == t.bill + StockValue(t.store)
    decreases |reqs|
  {
    if reqs != [] && !Ends(reqs[0]) {
      var key, qty := Key(reqs[0].item), reqs[0].qty;
      SaleKeepsValid(t.store, key, qty);
      SaleChargeNonNegative(t.store, key, qty);
      SaleConservesValue(t.store, key, qty);
      WellFormedTail(reqs);
      var u := Serve(t, key, qty);
      CollectConservesValue(u, reqs[1..]);
    }
  }

  // ----- purchase_products: settlement -----

  /** The records kept by settlement: those with stock left, in order. */
  function Settled(s: seq<Product>): seq<Product> {
    Filter(s, InStock)
  }

  /** The records settlement announces as sold out. */
  function SoldOut(s: seq<Product>): seq<Product> {
    Filter(s, IsSoldOut)
  }

  /** Settlement keeps exactly the records with stock, announces exactly those
      with none, and the two together account for the whole valid store. */
  lemma SettleSplits(s: seq<Product>)
    ensures forall p :: p in Settled(s) ==> p in s && p.quantity > 0
    ensures forall i :: 0 <= i < |s| && s[i].quantity > 0 ==> s[i] in Settled(s)
    ensures forall p :: p in SoldOut(s) ==> p in s && p.quantity == 0
    ensures forall i :: 0 <= i < |s| && s[i].quantity == 0 ==> s[i] in SoldOut(s)
    ensures ValidStore(s) ==> ValidStore(Settled(s)) && |Settled(s)| + |SoldOut(s)| == |s|
    ensures ValidStore(s) && SoldOut(s) == [] ==> Settled(s) == s
  {
    FilterMembers(s, InStock);
    FilterMembers(s, IsSoldOut);
    if ValidStore(s) {
      forall i | 0 <= i < |s| ensures IsSoldOut(s[i]) == !InStock(s[i]) {
        assert ValidProduct(s[i]);
      }
      FilterSplit(s, InStock, IsSoldOut);
      DrawnFromValid(s, Settled(s));
      if SoldOut(s) == [] {
        FilterIdentity(s, InStock);
      }
    }
  }

  /** `after` keeps the positions of `before`, and each record left at 0 in
      `after` is the record at the same position of `before`, which had stock,
      with only its quantity brought to 0. */
  predicate EmptiedAt(before: seq<Product>, after: seq<Product>) {
    |after| == |before| &&
    forall i :: 0 <= i < |after| && after[i].quantity == 0 ==>
      before[i].quantity > 0 && after[i] == before[i].(quantity := 0)
  }

  /** Every record in `announced` is a record of `s` that had stock, with only
      its quantity brought to 0. */
  predicate EmptiedFrom(s: seq<Product>, announced: seq<Product>) {
    forall p :: p in announced ==>
      exists i :: 0 <= i < |s| && s[i].quantity > 0 && p == s[i].(quantity := 0)
  }

  /** On a stocked store, a collecting phase empties records only in place:
      each record at 0 afterwards is the record at its position before, which
      had stock, with its quantity brought to 0. */
  lemma EmptiedDuringSession(t: Till, reqs: seq<Request>)
    requires ValidStore(t.store) && Stocked(t.store) && WellFormed(reqs)
    ensures EmptiedAt(t.store, Collect(t, reqs).store)
  {
    CollectKeepsValid(t, reqs);
  }

  /** On a stocked store, every record a session announces as sold out is a
      record of the starting store, which had stock, emptied by the session. */
  lemma SoldOutWereStocked(t: Till, reqs: seq<Request>)
    requires ValidStore(t.store) && Stocked(t.store) && WellFormed(reqs)
    ensures EmptiedFrom(t.store, SoldOut(Collect(t, reqs).store))
  {
    EmptiedDuringSession(t, reqs);
    var u := Collect(t, reqs).store;
    SettleSplits(u);
    forall p | p in SoldOut(u)
      ensures exists i :: 0 <= i < |t.store| && t.store[i].quantity > 0 && p == t.store[i].(quantity := 0)
    {
      var i :| 0 <= i < |u| && u[i] == p;
      assert t.store[i].quantity > 0 && p == t.store[i].(quantity := 0);
    }
  }

  /** Dropping records with no stock does not change the stock value. */
  lemma {:induction false} SettleKeepsValue(s: seq<Product>)
    requires forall i :: 0 <= i < |s| ==> s[i].quantity >= 0
    ensures StockValue(Settled(s)) == StockValue(s)
  {
    if s != [] {
      SettleKeepsValue(s[1..]);
      if InStock(s[0]) {
        assert ([s[0]] + Settled(s[1..]))[1..] == Settled(s[1..]);
      } else {
        assert [] + Settled(s[1..]) == Settled(s[1..]);
      }
    }
  }

  /** A record already empty when the collecting phase starts stays empty
      and is gone after settlement. */
  lemma SoldOutIsGone(t: Till, reqs: seq<Request>, i: nat)
    requires ValidStore(t.store) && WellFormed(reqs)
    requires i < |t.store| && t.store[i].quantity == 0
    ensures |Collect(t, reqs).store| == |t.store|
    ensures Collect(t, reqs).store[i].quantity == 0
    ensures Collect(t, reqs).store[i] !in Settled(Collect(t, reqs).store)
  {
    CollectKeepsValid(t, reqs);
    var u := Collect(t, reqs).store;
    assert u[i].quantity <= t.store[i].quantity && ValidProduct(u[i]);
    FilterMembers(u, InStock);
  }
}

=== FILE: scenarios.dfy ===
/** Worked scenarios against the starting store, as a client of
    the Inventory class would see them through its contracts. */
module Scenarios {
  import opened Options
  import opened Text
  import opened Seqs
  import opened Validate
  import opened Products
  import opened Store

  /** The positive-integer reader refuses "-5" and "abc" and accepts "5". */
  lemma ReaderRefusesThenAccepts()
    ensures ReadPositiveInt(Some(-5)) == Rejected(NotPositive)
    ensures ReadPositiveInt(None) == Rejected(NotWholeNumber)
    ensures ReadPositiveInt(Some(5)) == Accepted(5)
  {
  }

  lemma LowerLettuce()
    ensures Lower("lettuce") == "lettuce"
  {
    LowerIdempotent("lettuce");
  }

  /** A request typed as "lettuce" does not end the session. */
  lemma LettuceNotDone()
    ensures !Ends(Request("lettuce", 50))
  {
    LowerKnown("lettuce", "lettuce");
    assert IsTrimmed("lettuce");
  }

  /** The starting store with its lettuce sold out. */
  function LettuceGone(): seq<Product> {
    Seed()[0 := Product("lettuce", 10, 0, "Leafy green")]
  }

  lemma LettuceSession()
    ensures Collect(Till(Seed(), 0), [Request("lettuce", 50)]) == Till(LettuceGone(), 500)
  {
    LowerLettuce();
    var s := Seed();
    FirstNamedAt(s, "lettuce", 0);
    var reqs := [Request("lettuce", 50)];
    assert reqs[1..] == [];
  }

  /** The one-line script is served in full and carries a positive quantity. */
  lemma LettuceScript()
    ensures SessionLength([Request("lettuce", 50)]) == 1 && WellFormed([Request("lettuce", 50)])
  {
    LettuceNotDone();
    ServedAlone(Request("lettuce", 50));
  }

  /** Settling a store whose only empty record is the first drops just that record. */
  lemma SettleDropsHead(s: seq<Product>)
    requires s != [] && s[0].quantity == 0
    requires forall i :: 1 <= i < |s| ==> s[i].quantity > 0
    ensures Settled(s) == s[1..] && SoldOut(s) == [s[0]]
  {
    FilterIdentity(s[1..], InStock);
    FilterEmpty(s[1..], IsSoldOut);
  }

  lemma LettuceGoneShape()
    ensures LettuceGone() != [] && LettuceGone()[0] == Product("lettuce", 10, 0, "Leafy green")
    ensures LettuceGone()[1..] == Seed()[1..]
    ensures forall i :: 1 <= i < |LettuceGone()| ==> LettuceGone()[i].quantity > 0
  {
    SeedValid();
  }

  /** Buying all 50 lettuce from the starting store costs 500; settlement then
      drops lettuce and leaves the other nine products as they were. */
  lemma LettucePurchase()
    ensures Collect(Till(Seed(), 0), [Request("lettuce", 50)]).bill == 500
    ensures SoldOut(Collect(Till(Seed(), 0), [Request("lettuce", 50)]).store) == [Product("lettuce", 10, 0, "Leafy green")]
    ensures Settled(Collect(Till(Seed(), 0), [Request("lettuce", 50)]).store) == Seed()[1..]
  {
    LettuceSession();
    LettuceGoneShape();
    SettleDropsHead(LettuceGone());
  }

  /** The same scenario through the Inventory class. */
  method LettuceSellsOut() returns (bill: int, soldOut: seq<Product>, remaining: seq<Product>)
    ensures bill == 500
    ensures soldOut == [Product("lettuce", 10, 0, "Leafy green")]
    ensures remaining == Seed()[1..]
  {
    var inv := new Inventory();
    LettucePurchase();
    LettuceScript();
    bill, soldOut := inv.Purchase([Request("lettuce", 50)]);
    remaining := inv.products;
  }

  // ----- adding Kale and listing the leafy greens -----

  /** The record the Kale scenario adds through add_product. */
  function Kale(): Product {
    Product("Kale", 15, 5, "Leafy green")
  }

  /** Both text fields of Kale pass the text reader unchanged. */
  lemma KaleReadable()
    ensures ValidText("Kale") && ValidText("Leafy green")
  {
    assert !IsDigit("Kale"[0]) && !IsDigit("Leafy green"[0]);
  }

  /** Appending a record whose type lowers, character by character, to the
      key adds it at the end of that category's listing. */
  lemma AppendedToCategory(s: seq<Product>, p: Product, key: string)
    requires |p.ptype| == |key| && forall i :: 0 <= i < |p.ptype| ==> LowerChar(p.ptype[i]) == key[i]
    ensures CategoryListing(s + [p], key) == CategoryListing(s, key) + [p]
  {
    LowerKnown(p.ptype, key);
    FilterAppend(s, [p], InCategory(key));
    assert Filter([p], InCategory(key)) == [p];
  }

  /** The typed line "leafy green" is its own lookup key. */
  lemma LeafyGreenKey()
    ensures Key("leafy green") == "leafy green"
  {
    assert IsTrimmed("leafy green");
    LowerKnown("leafy green", "leafy green");
  }

  /** The category listing of a ten-record store whose types follow the seed's
      pattern: `lg` lowers to the key, `cr` differs from it in its first
      letter, `ma` and `ro` in length. */
  lemma SeedPatternListing(s: seq<Product>, key: string, lg: string, cr: string, ma: string, ro: string)
    requires |lg| == |key| && forall i :: 0 <= i < |lg| ==> LowerChar(lg[i]) == key[i]
    requires cr != [] && |cr| == |key| && LowerChar(cr[0]) != key[0]
    requires |ma| != |key| && |ro| != |key|
    requires |s| == 10
    requires s[0].ptype == lg && s[1].ptype == cr && s[2].ptype == ma && s[3].ptype == cr && s[4].ptype == ma
    requires s[5].ptype == ro && s[6].ptype == lg && s[7].ptype == cr && s[8].ptype == lg && s[9].ptype == ma
    ensures CategoryListing(s, key) == [s[0], s[6], s[8]]
  {
    LowerKnown(lg, key);
    LowerAt(cr, 0);
    var f := InCategory(key);
    FilterFrom(s, 9, f);
    FilterFrom(s, 8, f);
    FilterFrom(s, 7, f);
    FilterFrom(s, 6, f);
    FilterFrom(s, 5, f);
    FilterFrom(s, 4, f);
    FilterFrom(s, 3, f);
    FilterFrom(s, 2, f);
    FilterFrom(s, 1, f);
    FilterFrom(s, 0, f);
    assert s[10..] == [] && s[0..] == s;
  }

  /** The starting store's leafy greens are lettuce, spinach and garlic, in that order. */
  lemma SeedLeafyGreens()
    ensures CategoryListing(Seed(), "leafy green") == [Lettuce(), Spinach(), Garlic()]
  {
    SeedPatternListing(Seed(), "leafy green", "Leafy green", "Cruciferous", "Marrow", "Root");
  }

  /** After Kale is appended, the category "leafy green" lists lettuce,
      spinach, garlic and Kale, in insertion order. */
  lemma KaleListing()
    ensures CategoryListing(Seed() + [Kale()], "leafy green") == [Lettuce(), Spinach(), Garlic(), Kale()]
  {
    KaleAppended();
    SeedLeafyGreens();
  }

  lemma KaleAppended()
    ensures CategoryListing(Seed() + [Kale()], "leafy green") == CategoryListing(Seed(), "leafy green") + [Kale()]
  {
    AppendedToCategory(Seed(), Kale(), "leafy green");
  }

  /** The same scenario through the Inventory class: add Kale, then list the category. */
  method KaleJoinsLeafyGreens() returns (shown: seq<Product>, found: bool)
    ensures shown == [Lettuce(), Spinach(), Garlic(), Kale()] && found
  {
    var inv := new Inventory();
    KaleReadable();
    inv.AddProduct("Kale", 15, 5, "Leafy green");
    shown, found := inv.ProductsInCategory("leafy green");
    LeafyGreenKey();
    KaleListing();
  }
}

=== FILE: seqs.dfy ===
/** Order-preserving selection, the model of a Python list comprehension
    `[x for x in xs if f(x)]`. */
module Seqs {

  /** The elements of `s` that satisfy `f`, in their order in `s`. */
  function Filter<T>(s: seq<T>, f: T -> bool): (r: seq<T>)
    ensures |r| <= |s|
  {
    if s == [] then [] else (if f(s[0]) then [s[0]] else []) + Filter(s[1..], f)
  }

  /** The selection holds exactly the elements of `s` that satisfy `f`. */
  lemma {:induction false} FilterMembers<T>(s: seq<T>, f: T -> bool)
    ensures forall x :: x in Filter(s, f) <==> x in s && f(x)
  {
    if s != [] {
      FilterMembers(s[1..], f);
      assert s == [s[0]] + s[1..];
    }
  }

  /** Selection distributes over concatenation: together with the one-element
      case this fixes the order of the result. */
  lemma {:induction false} FilterAppend<T>(a: seq<T>, b: seq<T>, f: T -> bool)
    ensures Filter(a + b, f) == Filter(a, f) + Filter(b, f)
  {
    if a == [] {
      assert a + b == b;
    } else {
      assert (a + b)[0] == a[0] && (a + b)[1..] == a[1..] + b;
      FilterAppend(a[1..], b, f);
      assert Filter(a + b, f) == (if f(a[0]) then [a[0]] else []) + Filter(a[1..] + b, f);
    }
  }

  /** Selection from position `i` on, one element at a time. */
  lemma FilterFrom<T>(s: seq<T>, i: nat, f: T -> bool)
    requires i < |s|
    ensures Filter(s[i..], f) == (if f(s[i]) then [s[i]] else []) + Filter(s[i + 1..], f)
  {
    assert s[i..][1..] == s[i + 1..];
  }

  /** Selection keeps every occurrence of a selected value and none of the others. */
  lemma {:induction false} FilterMultiset<T>(s: seq<T>, f: T -> bool, x: T)
    ensures multiset(Filter(s, f))[x] == if f(x) then multiset(s)[x] else 0
  {
    if s != [] {
      assert s == [s[0]] + s[1..];
      FilterMultiset(s[1..], f, x);
    }
  }

  /** A selection leaves the sequence as it was exactly when every element is selected. */
  lemma {:induction false} FilterIdentity<T>(s: seq<T>, f: T -> bool)
    ensures Filter(s, f) == s <==> forall i :: 0 <= i < |s| ==> f(s[i])
  {
    if s != [] {
      FilterIdentity(s[1..], f);
      if Filter(s, f) == s {
        assert Filter(s[1..], f) == s[1..];
      }
    }
  }

  /** A selection is empty exactly when no element is selected. */
  lemma {:induction false} FilterEmpty<T>(s: seq<T>, f: T -> bool)
    ensures Filter(s, f) == [] <==> forall i :: 0 <= i < |s| ==> !f(s[i])
  {
    if s != [] {
      FilterEmpty(s[1..], f);
    }
  }

  /** Two selections that are complementary on the elements of a sequence
      split it: their lengths add up to its length. */
  lemma {:induction false} FilterSplit<T>(s: seq<T>, f: T -> bool, g: T -> bool)
    requires forall i :: 0 <= i < |s| ==> g(s[i]) == !f(s[i])
    ensures |Filter(s, f)| + |Filter(s, g)| == |s|
  {
    if s != [] {
      FilterSplit(s[1..], f, g);
    }
  }
}

=== FILE: store.dfy ===
/** The inventory store: the product list that main() creates once and every
    menu operation changes in place. */
module Store {
  import opened Text
  import opened Seqs
  import opened Validate
  import opened Products

  /** The ten products the program starts with. */
  function Seed(): seq<Product> {
    [Lettuce(), Cabbage(), Pumpkin(), Cauliflower(), Zucchini(),
     Yam(), Spinach(), Broccoli(), Garlic(), Silverbeet()]
  }

  function Lettuce(): Product { Product("lettuce", 10, 50, "Leafy green") }
  function Cabbage(): Product { Product("cabbage", 20, 100, "Cruciferous") }
  function Pumpkin(): Product { Product("pumpkin", 30, 30, "Marrow") }
  function Cauliflower(): Product { Product("cauliflower", 10, 25, "Cruciferous") }
  function Zucchini(): Product { Product("zucchini", 20, 50, "Marrow") }
  function Yam(): Product { Product("yam", 30, 50, "Root") }
  function Spinach(): Product { Product("spinach", 10, 100, "Leafy green") }
  function Broccoli(): Product { Product("broccoli", 20, 75, "Cruciferous") }
  function Garlic(): Product { Product("garlic", 30, 20, "Leafy green") }
  function Silverbeet(): Product { Product("silverbeet", 10, 50, "Marrow") }

  /** The starting store satisfies the store invariant, with every product in stock. */
  lemma SeedValid()
    ensures |Seed()| == 10 && ValidStore(Seed())
    ensures Stocked(Seed())
  {
    var s := Seed();
    forall i | 0 <= i < |s| ensures ValidProduct(s[i]) && s[i].quantity > 0 {
      assert !IsDigit(s[i].name[0]) && !IsDigit(s[i].ptype[0]);
    }
  }

  class Inventory {
    var products: seq<Product>

    ghost predicate Valid()
      reads this
    {
      ValidStore(products)
    }

    /** The store main() builds before its menu loop. */
    constructor ()
      ensures Valid() && Stocked(products) && products == Seed()
    {
      products := Seed();
      SeedValid();
    }

    /** add_product, given the four values its readers accepted: the record is
        appended at the end and nothing else changes. */
    method AddProduct(name: string, price: int, quantity: int, ptype: string)
      requires Valid()
      requires ValidText(name) && price > 0 && quantity > 0 && ValidText(ptype)
      modifies this
      ensures Valid()
      ensures products == old(products) + [Product(name, price, quantity, ptype)]
      ensures Stocked(old(products)) ==> Stocked(products)
    {
      products := products + [Product(name, price, quantity, ptype)];
    }

    /** display_products_by_category: the records it prints, in order, and
        whether it found any (otherwise it reports that none were found). */
    method ProductsInCategory(line: string) returns (shown: seq<Product>, found: bool)
      ensures shown == CategoryListing(products, Key(line))
      ensures found <==> shown != []
      ensures found <==> exists i :: 0 <= i < |products| && OfCategory(products[i], Key(line))
    {
      var category := Key(line);
      shown, found := [], false;
      for i := 0 to |products|
        invariant shown == Filter(products[..i], InCategory(category))
        invariant found <==> shown != []
      {
        if OfCategory(products[i], category) {
          shown := shown + [products[i]];
          found := true;
        }
        FilterAppend(products[..i], [products[i]], InCategory(category));
        assert products[..i + 1] == products[..i] + [products[i]];
      }
      assert products[..|products|] == products;
      CategoryListingExact(products, category);
    }

    /** remove_product: every record whose name matches the typed line is
        deleted; `removed` is the "removed" report, given when the store shrank. */
    method RemoveProduct(line: string) returns (removed: bool)
      requires Valid()
      modifies this
      ensures Valid()
      ensures products == Removed(old(products), Key(line))
      ensures removed <==> |products| < |old(products)|
      ensures removed <==> exists i :: 0 <= i < |old(products)| && NamedAs(old(products)[i], Key(line))
      ensures Stocked(old(products)) ==> Stocked(products)
    {
      var name := Key(line);
      var initialCount := |products|;
      RemoveDropsAllMatches(products, name);
      if Stocked(products) {
        RemoveKeepsStock(products, name);
      }
      products := Removed(products, name);
      removed := |products| < initialCount;
    }

    /** update_quantity: the first record whose name matches gains `addQty`;
        `updated` is false, and the store unchanged, when none matches. */
    method UpdateQuantity(line: string, addQty: int) returns (updated: bool)
      requires Valid() && addQty > 0
      modifies this
      ensures Valid()
      ensures products == Restocked(old(products), Key(line), addQty)
      ensures updated <==> exists i :: 0 <= i < |old(products)| && NamedAs(old(products)[i], Key(line))
      ensures Stocked(old(products)) ==> Stocked(products)
    {
      var name := Key(line);
      var i := 0;
      while i < |products| && !NamedAs(products[i], name)
        invariant 0 <= i <= |products|
        invariant forall j :: 0 <= j < i ==> !NamedAs(products[j], name)
      {
        i := i + 1;
      }
      updated := i < |products|;
      if updated {
        RestockAtFirstMatch(products, name, addQty, i);
        RestockKeepsValid(products, name, addQty);
        if Stocked(products) {
          RestockKeepsStock(products, name, addQty);
        }
        products := products[i := products[i].(quantity := products[i].quantity + addQty)];
      } else {
        RestockWithoutMatch(products, name, addQty);
      }
    }

    /** One request of purchase_products' collecting loop, for the key `item`:
        sells from the first record of that name if it has enough stock and
        adds the cost to the running bill. */
    method Sell(item: string, qty: int, bill: int) returns (newBill: int, sale: Sale)
      requires Valid() && qty > 0
      modifies this
      ensures Valid()
      ensures products == AfterSale(old(products), item, qty)
      ensures sale == SaleOf(old(products), item, qty)
      ensures newBill == bill + Charge(sale) && newBill >= bill
    {
      var i := 0;
      while i < |products| && !NamedAs(products[i], item)
        invariant 0 <= i <= |products|
        invariant forall j :: 0 <= j < i ==> !NamedAs(products[j], item)
      {
        i := i + 1;
      }
      newBill, sale := bill, NotFound;
      if i == |products| {
        SaleWithoutMatch(products, item, qty);
        return;
      }
      SaleAtFirstMatch(products, item, qty, i);
      SaleKeepsValid(products, item, qty);
      SaleChargeNonNegative(products, item, qty);
      if products[i].quantity < qty {
        sale := Insufficient(products[i].quantity);
      } else {
        products := products[i := products[i].(quantity := products[i].quantity - qty)];
        var cost := products[i].price * qty;
        newBill := newBill + cost;
        sale := Sold(cost, products[i].quantity == 0);
      }
    }

    /** purchase_products' settlement: announces the sold-out records and keeps
        only those with stock left. */
    method SettleSoldOut() returns (soldOut: seq<Product>)
      requires Valid()
      modifies this
      ensures Valid()
      ensures soldOut == SoldOut(old(products)) && products == Settled(old(products))
      ensures Stocked(products)
    {
      SettleSplits(products);
      soldOut := SoldOut(products);
      if soldOut != [] {
        products := Settled(products);
      }
    }

    /** purchase_products: serves the requests in order until one whose key is
        "done", then settles. The bill is what the store lost in stock value. */
    method Purchase(requests: seq<Request>) returns (bill: int, soldOut: seq<Product>)
      requires Valid() && WellFormed(requests)
      modifies this
      ensures Valid()
      ensures var t := Collect(Till(old(products), 0), requests);
              bill == t.bill && soldOut == SoldOut(t.store) && products == Settled(t.store)
      ensures bill >= 0 && bill + StockValue(products) == StockValue(old(products))
      ensures Stocked(products)
      ensures Stocked(old(products)) ==> EmptiedFrom(old(products), soldOut)
    {
      bill := 0;
      var k := 0;
      while k < |requests|
        invariant 0 <= k <= |requests| && Valid()
        invariant WellFormed(requests[k..])
        invariant Collect(Till(products, bill), requests[k..]) == Collect(Till(old(products), 0), requests)
        invariant bill >= 0 && bill + StockValue(products) == StockValue(old(products))
      {
        var item := Key(requests[k].item);
        if item == "done" {
          break;
        }
        var qty := requests[k].qty;
        assert requests[k..][0] == requests[k] && requests[k..][1..] == requests[k + 1..];
        WellFormedTail(requests[k..]);
        SaleConservesValue(products, item, qty);
        ghost var next := Serve(Till(products, bill), item, qty);
        assert Collect(Till(products, bill), requests[k..]) == Collect(next, requests[k + 1..]);
        var sale;
        bill, sale := Sell(item, qty, bill);
        assert Till(products, bill) == next;
        k := k + 1;
      }
      ghost var collected := products;
      forall i | 0 <= i < |collected| ensures collected[i].quantity >= 0 {
        assert ValidProduct(collected[i]);
      }
      SettleKeepsValue(collected);
      if Stocked(old(products)) {
        SoldOutWereStocked(Till(old(products), 0), requests);
      }
      soldOut := SettleSoldOut();
    }
  }
}

=== FILE: text.dfy ===
/** The three string primitives the inventory relies on, restricted to ASCII:
    str.strip() (Trim), str.lower() (Lower) and str.isdigit() (AllDigits). */
module Text {

  /** A character str.isspace() accepts within ASCII: \t \n \v \f \r, the
      separators \x1c to \x1f, and the space. */
  predicate IsSpace(c: char) {
    c == ' ' || '\t' <= c <= '\r' || '\U{1C}' <= c <= '\U{1F}'
  }

  predicate IsDigit(c: char) {
    '0' <= c <= '9'
  }

  predicate IsUpper(c: char) {
    'A' <= c <= 'Z'
  }

  function LowerChar(c: char): (d: char)
    ensures !IsUpper(d)
    ensures IsUpper(c) ==> 'a' <= d <= 'z' && d as int - 'a' as int == c as int - 'A' as int
    ensures !IsUpper(c) ==> d == c
    ensures IsSpace(c) <==> IsSpace(d)
  {
    if IsUpper(c) then (c as int + 32) as char else c
  }

  /** str.lower() on ASCII text: every letter A-Z becomes a-z, nothing else changes. */
  function Lower(s: string): (r: string)
    ensures |r| == |s|
  {
    if s == [] then [] else [LowerChar(s[0])] + Lower(s[1..])
  }

  /** Lowering works character by character. */
  lemma {:induction false} LowerAt(s: string, i: nat)
    requires i < |s|
    ensures Lower(s)[i] == LowerChar(s[i])
  {
    if i > 0 {
      LowerAt(s[1..], i - 1);
    }
  }

  /** Text whose characters lower one by one to those of `t` lowers to `t`. */
  lemma LowerKnown(s: string, t: string)
    requires |s| == |t| && forall i :: 0 <= i < |s| ==> LowerChar(s[i]) == t[i]
    ensures Lower(s) == t
  {
    forall i | 0 <= i < |s| ensures Lower(s)[i] == t[i] {
      LowerAt(s, i);
    }
  }

  /** Lowering twice is lowering once, and text without capitals is left as it is. */
  lemma LowerIdempotent(s: string)
    ensures Lower(Lower(s)) == Lower(s)
    ensures (forall i :: 0 <= i < |s| ==> !IsUpper(s[i])) <==> Lower(s) == s
  {
    forall i | 0 <= i < |s|
      ensures Lower(Lower(s))[i] == Lower(s)[i]
      ensures Lower(s)[i] == s[i] <==> !IsUpper(s[i])
    {
      LowerAt(s, i);
      LowerAt(Lower(s), i);
    }
    if Lower(s) == s {
      forall i | 0 <= i < |s| ensures !IsUpper(s[i]) {
        assert Lower(s)[i] == s[i];
      }
    }
  }

  /** str.isdigit() on ASCII text: false on the empty string. */
  predicate AllDigits(s: string) {
    |s| > 0 && forall i :: 0 <= i < |s| ==> IsDigit(s[i])
  }

  /** Neither end of the text is whitespace. */
  predicate IsTrimmed(s: string) {
    s == [] || (!IsSpace(s[0]) && !IsSpace(s[|s| - 1]))
  }

  /** str.lstrip(): the longest suffix that does not start with whitespace. */
  function TrimLeft(s: string): (r: string)
    ensures |r| <= |s| && r == s[|s| - |r|..]
    ensures forall i :: 0 <= i < |s| - |r| ==> IsSpace(s[i])
    ensures r == [] || !IsSpace(r[0])
  {
    if s != [] && IsSpace(s[0]) then TrimLeft(s[1..]) else s
  }

  /** str.rstrip(): the longest prefix that does not end with whitespace. */
  function TrimRight(s: string): (r: string)
    ensures |r| <= |s| && r == s[..|r|]
    ensures forall i :: |r| <= i < |s| ==> IsSpace(s[i])
    ensures r == [] || !IsSpace(r[|r| - 1])
  {
    if s != [] && IsSpace(s[|s| - 1]) then TrimRight(s[..|s| - 1]) else s
  }

  /** str.strip(): whitespace removed from both ends. */
  function Trim(s: string): (r: string)
    ensures IsTrimmed(r) && |r| <= |s|
    ensures r == [] <==> forall i :: 0 <= i < |s| ==> IsSpace(s[i])
    ensures IsTrimmed(s) ==> r == s
  {
    var t := TrimLeft(s);
    // An all-blank tail would contradict TrimLeft's first character, so t is empty.
    assert TrimRight(t) == [] ==> t == [];
    assert TrimRight(t) != [] ==> TrimRight(t)[0] == t[0];
    TrimRight(t)
  }

  /** Stripping is idempotent: text read once and stripped again is unchanged. */
  lemma TrimIdempotent(s: string)
    ensures Trim(Trim(s)) == Trim(s)
  {
  }
}

=== FILE: validate.dfy ===
/** One attempt of each validated input reader (input_positive_int and
    input_non_numeric_string). The readers repeat an attempt until it is
    accepted; an accepted reading is what they return. */
module Validate {
  import opened Options
  import opened Text

  /** Why an attempt was refused; each has its own diagnostic in the program. */
  datatype Complaint = NotWholeNumber | NotPositive | EmptyText | NumericText

  datatype Reading<T> = Accepted(value: T) | Rejected(complaint: Complaint)

  /** What input_non_numeric_string can return: stripped, non-empty, not all digits. */
  predicate ValidText(s: string) {
    s != [] && IsTrimmed(s) && !AllDigits(s)
  }

  /** One pass of input_positive_int's loop: `parsed` is int() of the stripped
      line, None where int() raises ValueError. */
  function ReadPositiveInt(parsed: Option<int>): (r: Reading<int>)
    ensures r.Accepted? <==> parsed.Some? && parsed.value > 0
    ensures r.Accepted? ==> r.value == parsed.value && r.value > 0
    ensures r.Rejected? ==> (r.complaint == NotWholeNumber <==> parsed.None?)
    ensures r.Rejected? ==> r.complaint in {NotWholeNumber, NotPositive}
  {
    match parsed
    case None => Rejected(NotWholeNumber)
    case Some(v) => if v > 0 then Accepted(v) else Rejected(NotPositive)
  }

  /** One pass of input_non_numeric_string's loop on the typed line. */
  function ReadText(line: string): (r: Reading<string>)
    ensures r.Accepted? <==> ValidText(Trim(line))
    ensures r.Accepted? ==> r.value == Trim(line) && ValidText(r.value)
    ensures r == Rejected(EmptyText) <==> forall i :: 0 <= i < |line| ==> IsSpace(line[i])
    ensures r.Rejected? ==> r.complaint in {EmptyText, NumericText}
  {
    var value := Trim(line);
    if value == [] then Rejected(EmptyText)
    else if AllDigits(value) then Rejected(NumericText)
    else Accepted(value)
  }

  /** Every valid text is accepted as it was typed, so the reader rejects only invalid text. */
  lemma ReadTextAcceptsValid(s: string)
    requires ValidText(s)
    ensures ReadText(s) == Accepted(s)
  {
  }
}
